=== FILE: README.md ===
# hubfy-tasks request logic in Dafny

A model of the server-side request handling of a small multi-user task
tracker, and of the browser-side list updates that consume it:

- `Middleware.GetAuthUser` — identity from an `Authorization: Bearer <token>`
  header (exact, case-sensitive prefix; the second space-separated word is
  handed to the token verifier).
- `TasksRoute.List` / `TasksRoute.Create` — `GET` and `POST /api/tasks`:
  owner-scoped listing newest first; creation checked in the order token,
  title, status whitelist, with defaults and the owner forced to the caller.
- `RegisterRoute.Register` — `POST /api/auth/register`: first-failure-wins
  validation (fields, password length, email pattern, email in use), then the
  user stored with a hashed password.
- `LoginRoute.Login` — `POST /api/auth/login`: 400 / 401 / 200, with unknown
  email and wrong password answered identically.
- `Validations` — the declared input schemas for register, login, create-task
  and update-task, as parsers with their length bounds, enum and defaults.
- `Dashboard` — the client's prepend / replace-by-id / remove-by-id updates,
  the status filter and the total count.

Every handler is a pure function from its inputs and the store to a response
(and, for the two that write, the new store). Hashing, comparing, signing and
verifying tokens are parameters (`AuthLib.Crypto`); `AuthLib.Sound` lists the
facts about them the proofs use: a password matches each of its hashes, a
hash is not the plaintext, a signed token verifies back to the same id and
email, the empty token does not verify, and a token contains no space (its
compact form is three base64url segments). The database is a sequence of rows
plus an auto-increment counter; its clock is the `now` parameter and bcrypt's
salt the `salt` parameter. JavaScript semantics are written out in `Js`:
truthiness of an optional string (present and non-empty), `length` in UTF-16
code units, the `\s` class, `startsWith`, and `split` with its inverse `join`.
`getAuthUser` depends on nothing but the header and the verifier, and login
returns no new user table, both by their signatures.

Where the handlers disagree with the rest of the repository, the model follows
the handlers:
- a duplicate email is answered 400, where the registration test
  (src/__tests__/auth.test.ts:95) expects 409;
- the create handler whitelists "in-progress" with a hyphen, while the
  schemas (src/lib/validations.ts:34,49) and the client's task type
  (src/lib/api.ts:51) use "in_progress";
- the input schemas exist but no handler calls them, so the handlers do their
  own, looser checks (no upper bounds, truthiness instead of types);
- the list handler has no paging or status filter.

## Model

| member | source | states |
|---|---|---|
| Js.FirstSegment | src/lib/middleware.ts:12 | the first segment of `split(sep)` is the text before the first separator |
| Js.JoinSplit | src/lib/middleware.ts:12 | joining the segments of a split with the separator gives back the original header text |
| Js.SplitJoin | src/lib/middleware.ts:12 | splitting a join of separator-free segments gives back exactly those segments |
| Js.Split | src/lib/middleware.ts:12 | `split(sep)` yields at least one segment, more than one exactly when the separator occurs, and no segment contains the separator |
| Js.Length | src/app/api/auth/register/route.ts:17 | `length` counts UTF-16 code units: one character counts 2 when above U+FFFF and 1 otherwise; the total lies between the number of characters and twice that, equals it for text in the Basic Multilingual Plane, and is zero exactly for the empty string |
| Js.LengthConcat | src/app/api/auth/register/route.ts:17 | the length of a concatenation is the sum of the lengths, so with the one-character case the UTF-16 count of every string is determined |
| Middleware.TokenOf | src/lib/middleware.ts:6-12 | a token is extracted iff the header is present and starts with "Bearer "; it is then the text after the prefix up to the next space |
| Middleware.GetAuthUser | src/lib/middleware.ts:5-14 | no header or no exact prefix gives null; otherwise the result is exactly the verifier's answer on the first word after the prefix |
| Middleware.NoSchemeNoVerification | src/lib/middleware.ts:8-10 | without the prefix the answer is null for every verifier, so the verifier is never consulted |
| Middleware.SchemeIsCaseSensitive | src/lib/middleware.ts:8 | "bearer x", "BEARER x", "Bearer", "Bearerx", " Bearer x" and "" are all refused before verification |
| Middleware.PlainToken | src/lib/middleware.ts:12-13 | for a space-free token t, header "Bearer " + t hands exactly t to the verifier and returns its answer |
| Middleware.LaterWordsIgnored | src/lib/middleware.ts:12-13 | with more words after the token only the first is verified |
| Middleware.EmptyTokenRejected | src/lib/middleware.ts:12-13 | the bare "Bearer " header, or one with a second space, passes "" to the verifier, which yields null under a sound verifier |
| TaskOrder.SortNewestFirst | src/app/api/tasks/route.ts:20 | the result is ordered by createdAt non-increasing and is a permutation of the input |
| TasksRoute.List | src/app/api/tasks/route.ts:7-26 | null identity gives 401; otherwise 200 with exactly the caller's tasks (as a multiset and element-wise), newest first |
| TasksRoute.Create | src/app/api/tasks/route.ts:38-78 | 401 exactly when there is no identity; for an identified caller a falsy title is the title 400 and a truthy status outside the whitelist is the status 400, the store untouched on every refusal; 201 iff identity, truthy title and status empty or whitelisted; the store grows by exactly the returned task, owned by the caller with a fresh id; id uniqueness is preserved |
| TasksRoute.Defaults | src/app/api/tasks/route.ts:70-71 | an empty or absent description is stored as null and an empty or absent status as "pending" |
| TasksRoute.TitleCheckedFirst | src/app/api/tasks/route.ts:52-65 | a missing title is refused with the title message whatever the status |
| TasksRoute.HyphenatedStatusOnly | src/app/api/tasks/route.ts:59-64 | "in_progress" is refused with 400 and the store unchanged, while "in-progress" is stored |
| TasksRoute.OwnerIsForced | src/app/api/tasks/route.ts:50-73 | an owner or id sent in the body changes nothing about the outcome |
| TasksRoute.ListAfterCreate | src/app/api/tasks/route.ts:18-74 | after a successful create the creator's listing gains exactly the new task and any other user's listing is unchanged |
| EmailRegex.IsEmailIsRegex | src/app/api/auth/register/route.ts:24-25 | the check accepts a string iff it is in the language of `^[^\s@]+@[^\s@]+\.[^\s@]+$` |
| EmailRegex.IsEmail | src/app/api/auth/register/route.ts:24-25 | an accepted address has at least five characters, starts and ends with a character of `[^\s@]`, and has an '@' strictly inside it; `IsEmailIsRegex` gives the exact language |
| EmailRegex.AcceptsPlainAddress | src/app/api/auth/register/route.ts:24 | "a@x.com" is accepted |
| EmailRegex.RefusesMissingAt | src/app/api/auth/register/route.ts:24 | "emailinvalido", having no '@', is refused |
| EmailRegex.RefusesSecondAt | src/app/api/auth/register/route.ts:24 | "a@b@c.com" is refused: '@' is outside the class on both sides |
| EmailRegex.RefusesSpace | src/app/api/auth/register/route.ts:24 | "a b@c.com" is refused: whitespace is outside the class |
| EmailRegex.RefusesEmptyLocalPart | src/app/api/auth/register/route.ts:24 | "@x.com" is refused: the local part needs at least one character |
| EmailRegex.RefusesEmptyDomainLabel | src/app/api/auth/register/route.ts:24 | "a@.com" is refused: the label before the dot needs at least one character |
| Users.FindByEmail | src/app/api/auth/register/route.ts:32-34 | a found user is in the table with that email; none found means no user has it |
| Users.FoundIsTheOne | src/app/api/auth/login/route.ts:17-19 | in a table with unique emails the lookup returns the one user with that email |
| RegisterRoute.Register | src/app/api/auth/register/route.ts:5-63 | answers only 201 or 400; 400 leaves the table; 201 iff all fields truthy, password of 8+ units, email matching the pattern and not in use; the stored user has the hashed password and the response its id, name and email; unique ids and emails are preserved |
| RegisterRoute.MissingFieldFirst | src/app/api/auth/register/route.ts:10-15 | any missing or empty field gives the missing-fields 400 |
| RegisterRoute.PasswordBeforeEmail | src/app/api/auth/register/route.ts:17-30 | a short password is refused for its length even when the email is malformed |
| RegisterRoute.MalformedEmailRefused | src/app/api/auth/register/route.ts:24-29 | with all fields present and a password of at least 8 units, an email outside the pattern's language gets the invalid-email 400 and the table is unchanged |
| RegisterRoute.DuplicateEmailIs400 | src/app/api/auth/register/route.ts:36-41 | an email in use gives 400 (not 409) and leaves the table |
| RegisterRoute.SecondRegistrationRefused | src/app/api/auth/register/route.ts:32-51 | registering the same body again after success is the in-use refusal |
| RegisterRoute.PasswordNeverStoredPlain | src/app/api/auth/register/route.ts:43-51 | under a sound hasher the stored password differs from the plaintext yet matches it |
| LoginRoute.Login | src/app/api/auth/login/route.ts:5-50 | 400 iff email or password missing, and then always the missing-fields message; every 401 is the same response; an unknown email is 401; a 200 comes from a stored user with that email whose hash matches, with a token signed over that user's id, name and email and that user's public fields |
| LoginRoute.LoginDecision | src/app/api/auth/login/route.ts:17-50 | in a valid table login succeeds iff the user with that email matches the password, else 401 |
| LoginRoute.UnknownEmailLikeWrongPassword | src/app/api/auth/login/route.ts:21-35 | an unknown email and a wrong password produce identical responses |
| Validations.StatusRoundTrip | src/lib/validations.ts:33-35 | printing then parsing a status is the identity; parsing accepts exactly "pending", "in_progress", "completed" |
| Validations.ParseRegister | src/lib/validations.ts:3-14 | accepts iff name has 1..255 units, the email passes the email predicate and the password has 8..100 units |
| Validations.ParseLogin | src/lib/validations.ts:16-22 | accepts iff the email passes the email predicate and the password is non-empty, and then returns exactly that email and password |
| Validations.ParseCreateTask | src/lib/validations.ts:24-36 | accepts iff title has 1..255 units, description is absent or at most 1000, status absent or in the enum; absent status becomes pending |
| Validations.ParseUpdateTask | src/lib/validations.ts:38-51 | every field optional; present fields obey the creation bounds and enum; no default |
| Validations.CreateRoundTrip | src/lib/validations.ts:24-36 | re-sending a parsed creation input parses to the same input |
| Validations.EmptyUpdateValid | src/lib/validations.ts:38-51 | the empty update parses to the all-absent update |
| Validations.CreateImpliesUpdate | src/lib/validations.ts:24-51 | whatever creation accepts, update accepts with the same fields, differing only in the status default |
| Validations.UnknownKeysDropped | src/lib/validations.ts:24-51 | an owner or id in the body does not affect either task schema |
| Dashboard.Prepend | src/app/dashboard/page.tsx:51 | the created task is at index 0, followed by the previous list unchanged |
| Dashboard.ReplaceById | src/app/dashboard/page.tsx:62 | the length is kept; every element with the id becomes the returned task and every other element is unchanged |
| Dashboard.RemoveById | src/app/dashboard/page.tsx:71 | no element with the id remains and every element with another id remains |
| Dashboard.Visible | src/app/dashboard/page.tsx:77-80 | never longer than the list; under a filter other than "all" every shown task has that status and comes from the list; every task the filter admits is shown |
| Dashboard.Total | src/app/dashboard/page.tsx:150 | the total is the length of the whole list, the number shown under "all", and never less than the number shown under any filter |
| Dashboard.TotalIgnoresFilter | src/app/dashboard/page.tsx:150 | changing the filter leaves the total unchanged, and what any filter shows never exceeds it |
| Dashboard.HandleCreate | src/app/dashboard/page.tsx:47-57 | success prepends and keeps the error text; failure keeps the list and sets the thrown message or the default |
| Dashboard.HandleUpdate | src/app/dashboard/page.tsx:59-66 | success replaces by id; failure keeps the list and sets the error text |
| Dashboard.HandleDelete | src/app/dashboard/page.tsx:68-75 | success removes by id; failure keeps the list and sets the error text |
| Dashboard.FailureKeepsList | src/app/dashboard/page.tsx:52-74 | a failed create, update or delete leaves the list, the total and what is shown unchanged |
| Dashboard.DeleteKeepsOrder | src/app/dashboard/page.tsx:71 | removal yields an order-preserving subsequence whose length is the number of elements with another id |
| Dashboard.DeleteIdempotent | src/app/dashboard/page.tsx:71 | removing an id twice is removing it once |
| Dashboard.DeleteUndoesCreate | src/app/dashboard/page.tsx:51-71 | deleting a freshly created task (id not yet in the list) restores the previous list |
| Dashboard.UpdateThenDelete | src/app/dashboard/page.tsx:62-71 | updating a task and then deleting its id leaves the same list as deleting alone |
| Dashboard.UpdateAbsentIsIdentity | src/app/dashboard/page.tsx:62 | updating an id that no task in the list has leaves the list unchanged |
| Dashboard.VisibleIsFilteredSubsequence | src/app/dashboard/page.tsx:77-80 | "all" shows the whole list; any other filter shows the tasks with that status, in list order, as many as the list has with that status, never more than the total count of line 150 |
| Scenarios.RegisterLoginList | src/app/api/auth/login/route.ts:37-50 | after registering, the same credentials log in; the token sent as a Bearer header identifies the new user, and listing answers exactly that user's tasks |
| Scenarios.StatusSpellingsDisagree | src/app/api/tasks/route.ts:59 | the handler and the schemas each refuse the other's spelling of the in-progress status |
| Scenarios.EmptyStatusDisagrees | src/app/api/tasks/route.ts:60-71 | an empty status is stored as "pending" by the handler but refused by the schema |
| Scenarios.RouteLooserThanSchema | src/app/api/auth/register/route.ts:17-22 | the handler stores users with passwords over 100 units or names over 255 that the schema refuses |
| Scenarios.LoginSchemaAcceptedNotMissing | src/lib/validations.ts:16-22 | when the email predicate refuses "", a body the login schema accepts is never the handler's missing-fields 400, only 200 or 401 (src/app/api/auth/login/route.ts:10-15) |

## Left out

- The `PUT`/`DELETE /api/tasks/[id]` handler, ownership (403) and existence (404) checks: src/app/api/tasks/[id]/route.ts is not part of this model.
- Paging (`page`, `limit`, `totalPages`): the list handler modelled here has none.
- The catch-all 500 branches, `await`, Prisma errors and malformed JSON bodies: storage and parsing failures are out of scope.
- Body fields that are JSON numbers, booleans or `null`: every body field is an absent-or-string value; truthiness is "present and non-empty".
- bcrypt and JWT internals (salting rounds, signature, expiry clock, extra claims `iat`/`exp`): abstract functions constrained only by `AuthLib.Sound`; the 72-byte bcrypt truncation is why `Sound` does not claim that different passwords never match.
- Header normalisation by the HTTP layer (trimming, case-insensitive header names): the header value is taken as `headers.get` returns it.
- Database collation: emails are compared exactly, character by character.
- `z.email()`: its pattern belongs to the validation library and enters as a parameter.
- The order of tasks with equal `createdAt`: the database leaves it open; the model keeps store order, and the contracts promise only ordering and permutation.
- Timestamps are natural numbers, not dates; `createdAt` and `updatedAt` both take the `now` parameter.
- The client's fetch wrapper, its `{ tasks }` response-shape expectation against the bare array the list handler sends, loading flags, routing, local storage, theme and auth contexts, and all rendering.
- `safeTasks = tasks || []` for an undefined list: the list is always a sequence here.

=== FILE: auth_lib.dfy ===
/**
 Password hashing and token signing, which the handlers only call. They are
 parameters of the model, gathered in one record; `Sound` lists the few
 facts about them the handlers' correctness rests on.
 */
module AuthLib {
  import opened Js
  import opened Entities

  datatype Crypto = Crypto(
    /** `hashPassword`: bcrypt with cost 10; the second argument is the salt
        drawn for that call, so equal passwords may hash differently. */
    hash: (string, nat) -> string,
    /** `comparePassword(plaintext, hashed)`. */
    compare: (string, string) -> bool,
    /** `generateToken`: signs `{ id, email, name }` with a one-hour expiry. */
    sign: UserPayload -> string,
    /** `verifyToken`: the claims of a valid, unexpired token, else `None`. */
    verify: string -> Option<UserPayload>)

  /** What the library's own tests and the compact token format promise:
      a password matches every hash of itself; a hash is never the
      plaintext; a freshly signed token verifies to the same id and email;
      the empty token does not verify; a token has no space in it (it is
      three base64url segments joined by dots). */
  ghost predicate Sound(c: Crypto) {
    && (forall p, salt :: c.compare(p, c.hash(p, salt)))
    && (forall p, salt :: c.hash(p, salt) != p)
    && (forall u :: c.verify(c.sign(u)).Some?
                    && c.verify(c.sign(u)).value.id == u.id
                    && c.verify(c.sign(u)).value.email == u.email)
    && c.verify("") == None
    && (forall u :: ' ' !in c.sign(u))
  }
}

=== FILE: dashboard.dfy ===
/**
 The dashboard's task list as the browser holds it, and the state updates its
 create, update and delete handlers apply once the API has answered. A failed
 call leaves the list alone and only sets the error text. What is shown is
 the list filtered by status; the total counts the whole list.
 */
module Dashboard {
  import opened Js
  import opened Seqs
  import opened Entities

  /** The component's `tasks`, `filter` and `error` state. */
  datatype ClientState = ClientState(tasks: seq<Task>, filter: string, error: string)

  /** How an API call settled: its value, or the thrown value's `message` when
      it was an `Error` (`None` when it was not). */
  datatype ApiResult<T> = Ok(value: T) | Failed(message: Option<string>)

  /** `[task, ...prev]`. */
  function Prepend(prev: seq<Task>, task: Task): (r: seq<Task>)
    ensures |r| == |prev| + 1 && r[0] == task && r[1..] == prev
  {
    [task] + prev
  }

  /** `prev.map(t => t.id === id ? task : t)`. */
  function ReplaceById(prev: seq<Task>, id: nat, task: Task): (r: seq<Task>)
    ensures |r| == |prev|
    ensures forall k :: 0 <= k < |r| && prev[k].id == id ==> r[k] == task
    ensures forall k :: 0 <= k < |r| && prev[k].id != id ==> r[k] == prev[k]
  {
    if prev == [] then []
    else [if prev[0].id == id then task else prev[0]] + ReplaceById(prev[1..], id, task)
  }

  /** `prev.filter(t => t.id !== id)`. */
  function RemoveById(prev: seq<Task>, id: nat): (r: seq<Task>)
    ensures forall k :: 0 <= k < |r| ==> r[k].id != id && r[k] in prev
    ensures forall k :: 0 <= k < |prev| && prev[k].id != id ==> prev[k] in r
  {
    Filter(prev, (t: Task) => t.id != id)
  }

  /** `filteredTasks`: everything under "all", else the tasks whose status is
      the filter text. */
  function Visible(tasks: seq<Task>, filter: string): (r: seq<Task>)
    ensures |r| <= |tasks|
    ensures filter != "all" ==> forall k :: 0 <= k < |r| ==> r[k].status == filter && r[k] in tasks
    ensures forall k :: 0 <= k < |tasks| && (filter == "all" || tasks[k].status == filter) ==> tasks[k] in r
  {
    if filter == "all" then tasks else Filter(tasks, (t: Task) => t.status == filter)
  }

  /** The count shown under the list: every task, whatever the filter shows. */
  function Total(s: ClientState): (n: nat)
    ensures n >= |Visible(s.tasks, s.filter)|
    ensures s.filter == "all" ==> n == |Visible(s.tasks, s.filter)|
    ensures n == |Visible(s.tasks, "all")|
  {
    |s.tasks|
  }

  /** The total does not depend on the filter: changing it leaves the total
      as it was, while what is shown may shrink. */
  lemma TotalIgnoresFilter(s: ClientState, f: string)
    ensures Total(s.(filter := f)) == Total(s)
    ensures |Visible(s.tasks, f)| <= Total(s)
  {
  }

  function HandleCreate(s: ClientState, res: ApiResult<Task>): (r: ClientState)
    ensures r.filter == s.filter
    ensures res.Ok? ==> r.tasks == Prepend(s.tasks, res.value) && r.error == s.error
    ensures res.Failed? ==> r.tasks == s.tasks && r.error == res.message.GetOr("Erro ao criar tarefa")
  {
    match res
    case Ok(task) => s.(tasks := Prepend(s.tasks, task))
    case Failed(m) => s.(error := m.GetOr("Erro ao criar tarefa"))
  }

  function HandleUpdate(s: ClientState, id: nat, res: ApiResult<Task>): (r: ClientState)
    ensures r.filter == s.filter
    ensures res.Ok? ==> r.tasks == ReplaceById(s.tasks, id, res.value) && r.error == s.error
    ensures res.Failed? ==> r.tasks == s.tasks && r.error == res.message.GetOr("Erro ao atualizar tarefa")
  {
    match res
    case Ok(task) => s.(tasks := ReplaceById(s.tasks, id, task))
    case Failed(m) => s.(error := m.GetOr("Erro ao atualizar tarefa"))
  }

  function HandleDelete(s: ClientState, id: nat, res: ApiResult<()>): (r: ClientState)
    ensures r.filter == s.filter
    ensures res.Ok? ==> r.tasks == RemoveById(s.tasks, id) && r.error == s.error
    ensures res.Failed? ==> r.tasks == s.tasks && r.error == res.message.GetOr("Erro ao excluir tarefa")
  {
    match res
    case Ok(_) => s.(tasks := RemoveById(s.tasks, id))
    case Failed(m) => s.(error := m.GetOr("Erro ao excluir tarefa"))
  }

  /** A failed call of any kind leaves the list, and so the total and what is
      shown, exactly as they were. */
  lemma FailureKeepsList(s: ClientState, id: nat, m: Option<string>)
    ensures HandleCreate(s, Failed(m)).tasks == s.tasks
    ensures HandleUpdate(s, id, Failed(m)).tasks == s.tasks
    ensures HandleDelete(s, id, Failed(m)).tasks == s.tasks
    ensures Total(HandleCreate(s, Failed(m))) == Total(s)
    ensures Total(HandleUpdate(s, id, Failed(m))) == Total(s)
    ensures Total(HandleDelete(s, id, Failed(m))) == Total(s)
    ensures Visible(HandleCreate(s, Failed(m)).tasks, s.filter) == Visible(s.tasks, s.filter)
    ensures Visible(HandleUpdate(s, id, Failed(m)).tasks, s.filter) == Visible(s.tasks, s.filter)
    ensures Visible(HandleDelete(s, id, Failed(m)).tasks, s.filter) == Visible(s.tasks, s.filter)
  {
  }

  /** Deleting removes exactly the tasks with that id and keeps the rest in
      their relative order; the list shrinks by the number removed. */
  lemma {:induction false} DeleteKeepsOrder(prev: seq<Task>, id: nat)
    ensures IsSubsequence(RemoveById(prev, id), prev)
    ensures |RemoveById(prev, id)| == Count(prev, (t: Task) => t.id != id)
  {
    FilterIsSubsequence(prev, (t: Task) => t.id != id);
    FilterLength(prev, (t: Task) => t.id != id);
  }

  /** Deleting twice is deleting once. */
  lemma DeleteIdempotent(prev: seq<Task>, id: nat)
    ensures RemoveById(RemoveById(prev, id), id) == RemoveById(prev, id)
  {
    FilterIdempotent(prev, (t: Task) => t.id != id);
  }

  /** Deleting a freshly created task restores the list it was created on. */
  lemma {:induction false} DeleteUndoesCreate(prev: seq<Task>, task: Task)
    requires forall k :: 0 <= k < |prev| ==> prev[k].id != task.id
    ensures RemoveById(Prepend(prev, task), task.id) == prev
  {
    var keep := (t: Task) => t.id != task.id;
    assert Prepend(prev, task)[1..] == prev;
    FilterAll(prev, keep);
  }

  /** Updating a task and then deleting it leaves what deleting alone would. */
  lemma {:induction false} UpdateThenDelete(prev: seq<Task>, id: nat, task: Task)
    requires task.id == id
    ensures RemoveById(ReplaceById(prev, id, task), id) == RemoveById(prev, id)
  {
    if prev != [] {
      var keep := (t: Task) => t.id != id;
      var r := ReplaceById(prev, id, task);
      UpdateThenDelete(prev[1..], id, task);
      assert r[1..] == ReplaceById(prev[1..], id, task);
      assert Filter(r, keep) == (if keep(r[0]) then [r[0]] else []) + Filter(r[1..], keep);
      assert Filter(prev, keep) == (if keep(prev[0]) then [prev[0]] else []) + Filter(prev[1..], keep);
    }
  }

  /** Updating an id no task has changes nothing. */
  lemma {:induction false} UpdateAbsentIsIdentity(prev: seq<Task>, id: nat, task: Task)
    requires forall k :: 0 <= k < |prev| ==> prev[k].id != id
    ensures ReplaceById(prev, id, task) == prev
  {
    if prev != [] {
      UpdateAbsentIsIdentity(prev[1..], id, task);
      assert [prev[0]] + prev[1..] == prev;
    }
  }

  /** Under "all" every task is shown; under any other filter exactly the
      tasks with that status are shown, in list order, never more than the
      total. */
  lemma {:induction false} VisibleIsFilteredSubsequence(s: ClientState)
    ensures s.filter == "all" ==> Visible(s.tasks, s.filter) == s.tasks
    ensures IsSubsequence(Visible(s.tasks, s.filter), s.tasks)
    ensures |Visible(s.tasks, s.filter)| <= Total(s)
    ensures s.filter != "all" ==>
              && (forall k :: 0 <= k < |Visible(s.tasks, s.filter)| ==> Visible(s.tasks, s.filter)[k].status == s.filter)
              && (forall k :: 0 <= k < |s.tasks| && s.tasks[k].status == s.filter ==> s.tasks[k] in Visible(s.tasks, s.filter))
              && |Visible(s.tasks, s.filter)| == Count(s.tasks, (t: Task) => t.status == s.filter)
  {
    var keep := (t: Task) => t.status == s.filter;
    if s.filter == "all" {
      FilterAll(s.tasks, (t: Task) => true);
      FilterIsSubsequence(s.tasks, (t: Task) => true);
    } else {
      FilterIsSubsequence(s.tasks, keep);
      FilterLength(s.tasks, keep);
    }
  }
}

=== FILE: email_regex.dfy ===
/**
 The registration handler's email check, `/^[^\s@]+@[^\s@]+\.[^\s@]+$/.test`.
 `Matches` is what the pattern denotes; `IsEmail` decides it by looking for
 the one '@' and a dot strictly inside the domain.
 */
module EmailRegex {
  import opened Js

  /** `[^\s@]`. The pattern has no `u` flag, so it runs over UTF-16 code
      units; a character outside the Basic Multilingual Plane is two
      surrogates, each in the class, so matching per character agrees. */
  predicate InClass(c: char) {
    !IsWhitespace(c) && c != '@'
  }

  ghost predicate AllInClass(s: string) {
    forall k :: 0 <= k < |s| ==> InClass(s[k])
  }

  /** The language of the pattern: three non-empty runs of `[^\s@]` joined by
      '@' and then '.'. */
  ghost predicate Matches(s: string) {
    exists i, j ::
      && 0 < i && i + 1 < j && j + 1 < |s|
      && s[i] == '@' && s[j] == '.'
      && AllInClass(s[..i]) && AllInClass(s[i + 1..j]) && AllInClass(s[j + 1..])
  }

  /** Position of the first `c` in `s`. */
  function IndexOf(s: string, c: char): (i: nat)
    requires c in s
    ensures i < |s| && s[i] == c && c !in s[..i]
  {
    if s[0] == c then 0
    else
      assert s[1..][IndexOf(s[1..], c)] == c;
      assert s[..IndexOf(s[1..], c) + 1] == [s[0]] + s[1..][..IndexOf(s[1..], c)];
      1 + IndexOf(s[1..], c)
  }

  /** No whitespace anywhere, exactly one '@', something before it, and a '.'
      after it with at least one character on either side of the dot. */
  function IsEmail(s: string): (b: bool)
    ensures b ==> 5 <= |s| && InClass(s[0]) && InClass(s[|s| - 1])
    ensures b ==> exists i :: 0 < i < |s| - 1 && s[i] == '@'
  {
    && (forall k :: 0 <= k < |s| ==> !IsWhitespace(s[k]))
    && '@' in s
    && var i := IndexOf(s, '@');
       && i > 0
       && '@' !in s[i + 1..]
       && i + 4 <= |s|
       && '.' in s[i + 2..|s| - 1]
  }

  /** The check accepts exactly the strings the pattern matches. Each
      direction has its own lemma: left to find the witnesses unaided, the
      solver's search is slow and its cost varies widely. */
  lemma IsEmailIsRegex(s: string)
    ensures IsEmail(s) <==> Matches(s)
  {
    if IsEmail(s) {
      AcceptedMatches(s);
    }
    if Matches(s) {
      MatchedAccepted(s);
    }
  }

  /** Every character of `s` other than the one at `i` is in the class. */
  ghost predicate InClassExcept(s: string, i: nat) {
    forall k :: 0 <= k < |s| && k != i ==> InClass(s[k])
  }

  lemma InClassSlice(s: string, i: nat, lo: nat, hi: nat)
    requires InClassExcept(s, i)
    requires lo <= hi <= |s| && (i < lo || hi <= i)
    ensures AllInClass(s[lo..hi])
  {
    forall k | 0 <= k < hi - lo ensures InClass(s[lo..hi][k]) {
      assert s[lo..hi][k] == s[lo + k];
    }
  }

  lemma AcceptedMatches(s: string)
    requires IsEmail(s)
    ensures Matches(s)
  {
    var i := IndexOf(s, '@');
    var tail := s[i + 2..|s| - 1];
    var m :| 0 <= m < |tail| && tail[m] == '.';
    var j := i + 2 + m;
    assert s[j] == '.';
    forall k | 0 <= k < |s| && k != i ensures InClass(s[k]) {
      if k < i {
        assert s[k] == s[..i][k];
      } else {
        assert s[k] == s[i + 1..][k - i - 1];
      }
    }
    InClassSlice(s, i, 0, i);
    InClassSlice(s, i, i + 1, j);
    InClassSlice(s, i, j + 1, |s|);
  }

  lemma MatchedAccepted(s: string)
    requires Matches(s)
    ensures IsEmail(s)
  {
    var i, j :| && 0 < i && i + 1 < j && j + 1 < |s|
                && s[i] == '@' && s[j] == '.'
                && AllInClass(s[..i]) && AllInClass(s[i + 1..j]) && AllInClass(s[j + 1..]);
    MatchedInClassExcept(s, i, j);
    assert '@' !in s[..i] by {
      forall k | 0 <= k < i ensures s[..i][k] != '@' {
        assert s[..i][k] == s[k];
      }
    }
    IndexOfUnique(s, '@', i);
    var rest := s[i + 1..];
    assert '@' !in rest by {
      forall k | 0 <= k < |rest| ensures rest[k] != '@' {
        assert rest[k] == s[i + 1 + k];
      }
    }
    assert s[i + 2..|s| - 1][j - i - 2] == '.';
  }

  /** In a match only the '@' falls outside the class. */
  lemma MatchedInClassExcept(s: string, i: nat, j: nat)
    requires 0 < i && i + 1 < j && j + 1 < |s|
    requires AllInClass(s[..i]) && AllInClass(s[i + 1..j]) && AllInClass(s[j + 1..])
    requires s[j] == '.'
    ensures InClassExcept(s, i)
  {
    forall k | 0 <= k < |s| && k != i ensures InClass(s[k]) {
      if k < i {
        assert s[k] == s[..i][k];
      } else if k < j {
        assert s[k] == s[i + 1..j][k - i - 1];
      } else if j < k {
        assert s[k] == s[j + 1..][k - j - 1];
      }
    }
  }

  /** An occurrence with none before it is the first one. */
  lemma {:induction false} IndexOfUnique(s: string, c: char, i: nat)
    requires i < |s| && s[i] == c && c !in s[..i]
    ensures IndexOf(s, c) == i
  {
    if i > 0 {
      assert s[0] == s[..i][0];
      assert s[1..][..i - 1] == s[..i][1..];
      IndexOfUnique(s[1..], c, i - 1);
    }
  }

  /** The address shape the registration tests use is accepted. */
  lemma AcceptsPlainAddress()
    ensures IsEmail("a@x.com")
  {
    assert IndexOf("a@x.com", '@') == 1;
    assert "a@x.com"[3..6][0] == '.';
  }

  /** The test's "emailinvalido" has no '@' and is refused. */
  lemma RefusesMissingAt()
    ensures !IsEmail("emailinvalido")
  {
    assert "emailinvalido" == "email" + "invalido";
    assert '@' !in "email" && '@' !in "invalido";
  }

  /** A second '@' is refused. */
  lemma RefusesSecondAt()
    ensures !IsEmail("a@b@c.com")
  {
    assert IndexOf("a@b@c.com", '@') == 1;
    assert "a@b@c.com"[2..][1] == '@';
  }

  /** Whitespace anywhere is refused. */
  lemma RefusesSpace()
    ensures !IsEmail("a b@c.com")
  {
    assert IsWhitespace("a b@c.com"[1]);
  }

  /** An empty local part is refused. */
  lemma RefusesEmptyLocalPart()
    ensures !IsEmail("@x.com")
  {
    assert IndexOf("@x.com", '@') == 0;
  }

  /** A domain whose only dot sits right after the '@' is refused. */
  lemma RefusesEmptyDomainLabel()
    ensures !IsEmail("a@.com")
  {
    assert IndexOf("a@.com", '@') == 1;
    assert "a@.com"[3..5] == "co";
  }
}

=== FILE: entities.dfy ===
/**
 The records the request handlers exchange: the identity claims carried by a
 token, the two stored entities (user and task) as the database rows them,
 the JSON request bodies the handlers destructure, and the JSON responses
 they return (an HTTP status code plus a payload).
 */
module Entities {
  import opened Js

  /** The claims a token carries and the public view of a user: never a password. */
  datatype UserPayload = UserPayload(id: nat, name: string, email: string)

  /** A stored user; `password` holds the bcrypt hash, not the plaintext. */
  datatype User = User(id: nat, name: string, email: string, password: string)

  /** `{ id, name, email }` of a stored user, as both auth handlers reply with it. */
  function Public(u: User): UserPayload {
    UserPayload(u.id, u.name, u.email)
  }

  /** A stored task. `status` is free text in the store: the create handler
      writes whatever its whitelist admits. Timestamps are clock ticks. */
  datatype Task = Task(
    id: nat,
    title: string,
    description: Option<string>,
    status: string,
    userId: nat,
    createdAt: nat,
    updatedAt: nat)

  /** `{ name, email, password }` as sent to the registration endpoint. */
  datatype RegisterBody = RegisterBody(name: Option<string>, email: Option<string>, password: Option<string>)

  /** `{ email, password }` as sent to the login endpoint. */
  datatype LoginBody = LoginBody(email: Option<string>, password: Option<string>)

  /** A task body as a client may send it. Besides the three fields the
      handlers read, a client can put an owner or an id of its own choosing
      into the JSON; those two stand for every such extra key. */
  datatype TaskBody = TaskBody(
    title: Option<string>,
    description: Option<string>,
    status: Option<string>,
    userId: Option<nat>,
    id: Option<nat>)

  /** The JSON payloads the handlers answer with. */
  datatype Payload =
    | Message(message: string)                        // `{ message }`
    | Error(error: string)                            // `{ error }`
    | TaskList(tasks: seq<Task>)                      // a bare array of tasks
    | CreatedTask(task: Task)                         // `{ task }`
    | Registered(message: string, user: UserPayload)  // `{ message, user }`
    | LoggedIn(token: string, user: UserPayload)      // `{ token, user }`

  datatype Response = Response(status: nat, payload: Payload)
}

=== FILE: js.dfy ===
/**
 The pieces of JavaScript value semantics the request handlers lean on:
 truthiness of an optional string field, `String.prototype.length` (UTF-16
 code units), the `\s` character class, `startsWith`, and `split` on a
 one-character separator together with its inverse `join`.
 */
module Js {

  /** `None` is a body field that is absent (`undefined`), or the `null` that
      `headers.get` returns for a missing header; a JSON `null` inside a body
      is not modelled. */
  datatype Option<+T> = None | Some(value: T) {
    function GetOr(default: T): T {
      match this
      case Some(v) => v
      case None => default
    }
  }

  /** `!!field` for a field that is either absent or a string: only the
      non-empty string is truthy. */
  predicate Truthy(f: Option<string>) {
    f.Some? && f.value != ""
  }

  /** `value || fallback` on an optional string. */
  function OrElse(f: Option<string>, fallback: string): (r: string)
    ensures Truthy(f) ==> r == f.value
    ensures !Truthy(f) ==> r == fallback
  {
    if Truthy(f) then f.value else fallback
  }

  /** Number of UTF-16 code units one character occupies. */
  function CodeUnits(c: char): nat {
    if c as int > 0xFFFF then 2 else 1
  }

  /** `s.length`: a character outside the Basic Multilingual Plane counts twice. */
  function Length(s: string): (n: nat)
    ensures |s| <= n <= 2 * |s|
    ensures (forall k :: 0 <= k < |s| ==> s[k] as int <= 0xFFFF) ==> n == |s|
    ensures n == 0 <==> s == []
    ensures |s| == 1 ==> n == (if s[0] as int > 0xFFFF then 2 else 1)
  {
    if s == [] then 0 else CodeUnits(s[0]) + Length(s[1..])
  }

  /** The length of a concatenation is the sum of the lengths; with the
      one-character case of `Length` this fixes the count of every string. */
  lemma {:induction false} LengthConcat(a: string, b: string)
    ensures Length(a + b) == Length(a) + Length(b)
  {
    if a == [] {
      assert a + b == b;
    } else {
      assert (a + b)[1..] == a[1..] + b;
      LengthConcat(a[1..], b);
    }
  }

  /** The characters `\s` matches in an ECMAScript regular expression: the
      WhiteSpace and LineTerminator productions (TAB, VT, FF, ZWNBSP, the
      Space_Separator category, LF, CR, LS and PS). */
  predicate IsWhitespace(c: char) {
    var n := c as int;
    || 0x09 <= n <= 0x0D
    || n == 0x20 || n == 0xA0 || n == 0x1680
    || 0x2000 <= n <= 0x200A
    || n == 0x2028 || n == 0x2029 || n == 0x202F || n == 0x205F
    || n == 0x3000 || n == 0xFEFF
  }

  /** `s.startsWith(prefix)`. */
  predicate StartsWith(s: string, prefix: string) {
    |prefix| <= |s| && s[..|prefix|] == prefix
  }

  /** The text of `s` before the first `sep`, or all of `s` when it has none. */
  function BeforeFirst(s: string, sep: char): (r: string)
    ensures StartsWith(s, r)
    ensures sep !in r
    ensures |r| == |s| || s[|r|] == sep
  {
    if s == [] || s[0] == sep then [] else [s[0]] + BeforeFirst(s[1..], sep)
  }

  /** `s.split(sep)` for a one-character separator: the maximal
      separator-free segments, so a string with n separators has n + 1
      segments (the empty string has one, itself). */
  function Split(s: string, sep: char): (parts: seq<string>)
    ensures |parts| >= 1
    ensures sep in s <==> |parts| >= 2
    ensures forall k :: 0 <= k < |parts| ==> sep !in parts[k]
  {
    if s == [] then [""]
    else
      var rest := Split(s[1..], sep);
      if s[0] == sep then [""] + rest
      else [[s[0]] + rest[0]] + rest[1..]
  }

  /** `parts.join(sep)` for a non-empty array of segments. */
  function Join(parts: seq<string>, sep: char): string
    requires |parts| >= 1
  {
    if |parts| == 1 then parts[0] else parts[0] + [sep] + Join(parts[1..], sep)
  }

  /** Joining the segments of a split restores the string. */
  lemma {:induction false} JoinSplit(s: string, sep: char)
    ensures Join(Split(s, sep), sep) == s
  {
    if s != [] {
      var rest := Split(s[1..], sep);
      JoinSplit(s[1..], sep);
      if s[0] == sep {
        assert Split(s, sep) == [""] + rest;
        assert ([""] + rest)[1..] == rest;
      } else {
        var parts := Split(s, sep);
        assert parts == [[s[0]] + rest[0]] + rest[1..];
        if |rest| == 1 {
          assert Join(parts, sep) == [s[0]] + rest[0];
        } else {
          assert parts[1..] == rest[1..];
          assert Join(rest, sep) == rest[0] + [sep] + Join(rest[1..], sep);
          assert Join(parts, sep) == [s[0]] + rest[0] + [sep] + Join(rest[1..], sep);
        }
      }
    }
  }

  /** Splitting a join of separator-free segments gives the segments back. */
  lemma {:induction false} SplitJoin(parts: seq<string>, sep: char)
    requires |parts| >= 1
    requires forall k :: 0 <= k < |parts| ==> sep !in parts[k]
    ensures Split(Join(parts, sep), sep) == parts
  {
    if |parts| == 1 {
      SplitOfSeparatorFree(parts[0], sep);
    } else {
      SplitJoin(parts[1..], sep);
      SplitAfterFirst(parts[0], Join(parts[1..], sep), sep);
      assert [parts[0]] + parts[1..] == parts;
    }
  }

  /** A string without the separator is its own single segment. */
  lemma {:induction false} SplitOfSeparatorFree(s: string, sep: char)
    requires sep !in s
    ensures Split(s, sep) == [s]
  {
    if s != [] {
      SplitOfSeparatorFree(s[1..], sep);
      assert [s[0]] + s[1..] == s;
    }
  }

  /** Splitting `a + sep + b`, where `a` has no separator, yields `a` and then
      the segments of `b`. */
  lemma {:induction false} SplitAfterFirst(a: string, b: string, sep: char)
    requires sep !in a
    ensures Split(a + [sep] + b, sep) == [a] + Split(b, sep)
  {
    var s := a + [sep] + b;
    if a == [] {
      assert s == [sep] + b;
      assert s[1..] == b;
    } else {
      SplitAfterFirst(a[1..], b, sep);
      assert s[1..] == a[1..] + [sep] + b;
      assert [a[0]] + a[1..] == a;
    }
  }

  /** The first segment of a split is the text before the first separator. */
  lemma {:induction false} FirstSegment(s: string, sep: char)
    ensures Split(s, sep)[0] == BeforeFirst(s, sep)
  {
    if s != [] && s[0] != sep {
      FirstSegment(s[1..], sep);
    }
  }
}

=== FILE: login_route.dfy ===
/**
 `POST /api/auth/login`. Missing fields give 400; an unknown email and a wrong
 password give the same 401; otherwise 200 with a token signed over the stored
 user's `{ id, email, name }` and that user's public fields. The handler only
 reads the user table, so the model returns a response and no new table.
 */
module LoginRoute {
  import opened Js
  import opened Entities
  import opened Users

  const MissingFields := Response(400, Error("Email e senha são obrigatórios."))
  const InvalidCredentials := Response(401, Error("Email ou senha inválidos."))

  /** The handler with `compare` for `comparePassword` and `sign` for
      `generateToken`. */
  function Login(body: LoginBody, st: UserStore, compare: (string, string) -> bool, sign: UserPayload -> string)
    : (r: Response)
    ensures r.status in {200, 400, 401}
    ensures r.status == 400 <==> !Truthy(body.email) || !Truthy(body.password)
    ensures r.status == 400 ==> r == MissingFields
    ensures r.status == 401 ==> r == InvalidCredentials
    ensures Truthy(body.email) && Truthy(body.password) && !EmailTaken(st, body.email.value) ==>
              r == InvalidCredentials
    ensures r.status == 200 ==>
              exists k :: && 0 <= k < |st.users|
                          && st.users[k].email == body.email.value
                          && compare(body.password.value, st.users[k].password)
                          && var u := st.users[k];
                             r.payload == LoggedIn(sign(UserPayload(u.id, u.name, u.email)),
                                                   UserPayload(u.id, u.name, u.email))
  {
    if !Truthy(body.email) || !Truthy(body.password) then MissingFields
    else
      match FindByEmail(st.users, body.email.value)
      case None => InvalidCredentials
      case Some(user) =>
        if !compare(body.password.value, user.password) then InvalidCredentials
        else
          var claims := UserPayload(id := user.id, name := user.name, email := user.email);
          Response(200, LoggedIn(sign(claims), Public(user)))
  }

  /** In a valid table, login succeeds exactly when the one user with that
      email accepts the password, and otherwise the answer does not tell an
      unknown email from a wrong password. */
  lemma {:induction false} LoginDecision(body: LoginBody, st: UserStore, compare: (string, string) -> bool,
                                         sign: UserPayload -> string, k: nat)
    requires Valid(st)
    requires Truthy(body.email) && Truthy(body.password)
    requires k < |st.users| && st.users[k].email == body.email.value
    ensures var u := st.users[k];
            && (compare(body.password.value, u.password) ==>
                  Login(body, st, compare, sign)
                    == Response(200, LoggedIn(sign(UserPayload(u.id, u.name, u.email)), UserPayload(u.id, u.name, u.email))))
            && (!compare(body.password.value, u.password) ==> Login(body, st, compare, sign) == InvalidCredentials)
  {
    FoundIsTheOne(st, body.email.value, k);
  }

  /** An unknown email and a known email with the wrong password are answered
      identically. */
  lemma UnknownEmailLikeWrongPassword(b1: LoginBody, st1: UserStore, b2: LoginBody, st2: UserStore,
                                      compare: (string, string) -> bool, sign: UserPayload -> string, k: nat)
    requires Truthy(b1.email) && Truthy(b1.password) && !EmailTaken(st1, b1.email.value)
    requires Valid(st2) && Truthy(b2.email) && Truthy(b2.password)
    requires k < |st2.users| && st2.users[k].email == b2.email.value
    requires !compare(b2.password.value, st2.users[k].password)
    ensures Login(b1, st1, compare, sign) == Login(b2, st2, compare, sign)
  {
    LoginDecision(b2, st2, compare, sign, k);
  }
}

=== FILE: middleware.dfy ===
/**
 `getAuthUser`: the identity behind a request's `Authorization` header. The
 header must begin with the exact, case-sensitive text "Bearer "; the token
 is the second space-separated word of the header, and whatever
 `verifyToken` makes of it is the answer.
 */
module Middleware {
  import opened Js
  import opened Entities
  import AuthLib

  const Scheme: string := "Bearer "

  /** The string handed to `verifyToken`, or `None` when the handler returns
      null without verifying anything. */
  function TokenOf(header: Option<string>): (t: Option<string>)
    ensures t.Some? <==> header.Some? && StartsWith(header.value, Scheme)
    ensures t.Some? ==> t.value == BeforeFirst(header.value[|Scheme|..], ' ')
  {
    if !Truthy(header) || !StartsWith(header.value, Scheme) then None
    else
      var h := header.value;
      var rest := h[|Scheme|..];
      assert h == "Bearer" + [' '] + rest by {
        assert h[..|Scheme|] == Scheme;
        assert h == h[..|Scheme|] + rest;
      }
      SplitAfterFirst("Bearer", rest, ' ');
      FirstSegment(rest, ' ');
      Some(Split(h, ' ')[1])
  }

  /** `getAuthUser(request)` for a request whose authorization header is
      `header`, with `verify` standing for `verifyToken`. */
  function GetAuthUser(header: Option<string>, verify: string -> Option<UserPayload>): (r: Option<UserPayload>)
    ensures header.None? ==> r.None?
    ensures header.Some? && !StartsWith(header.value, Scheme) ==> r.None?
    ensures header.Some? && StartsWith(header.value, Scheme) ==>
              r == verify(BeforeFirst(header.value[|Scheme|..], ' '))
  {
    match TokenOf(header)
    case None => None
    case Some(token) => verify(token)
  }

  /** Without the exact scheme prefix the verifier is never consulted: any two
      verifiers give the same (null) answer. */
  lemma NoSchemeNoVerification(header: Option<string>, v1: string -> Option<UserPayload>, v2: string -> Option<UserPayload>)
    requires header.None? || !StartsWith(header.value, Scheme)
    ensures TokenOf(header).None?
    ensures GetAuthUser(header, v1) == GetAuthUser(header, v2) == None
  {
  }

  /** The scheme is matched case-sensitively and must include its space. */
  lemma SchemeIsCaseSensitive()
    ensures TokenOf(Some("bearer abc")).None?
    ensures TokenOf(Some("BEARER abc")).None?
    ensures TokenOf(Some("Bearer")).None?
    ensures TokenOf(Some("Bearerabc")).None?
    ensures TokenOf(Some(" Bearer abc")).None?
    ensures TokenOf(Some("")).None?
  {
    assert !StartsWith("bearer abc", Scheme) by { assert "bearer abc"[0] != Scheme[0]; }
    assert !StartsWith("BEARER abc", Scheme) by { assert "BEARER abc"[1] != Scheme[1]; }
    assert !StartsWith("Bearerabc", Scheme) by { assert "Bearerabc"[6] != Scheme[6]; }
    assert !StartsWith(" Bearer abc", Scheme) by { assert " Bearer abc"[0] != Scheme[0]; }
  }

  /** A space-free token after the scheme is handed to the verifier unchanged. */
  lemma {:induction false} PlainToken(t: string, verify: string -> Option<UserPayload>)
    requires ' ' !in t
    ensures TokenOf(Some(Scheme + t)) == Some(t)
    ensures GetAuthUser(Some(Scheme + t), verify) == verify(t)
  {
    assert (Scheme + t)[|Scheme|..] == t;
    BeforeFirstOfSeparatorFree(t, ' ');
  }

  /** Only the first word after the scheme is verified; anything after the
      next space is ignored. */
  lemma {:induction false} LaterWordsIgnored(t: string, more: string, verify: string -> Option<UserPayload>)
    requires ' ' !in t
    ensures TokenOf(Some(Scheme + t + " " + more)) == Some(t)
    ensures GetAuthUser(Some(Scheme + t + " " + more), verify) == verify(t)
  {
    var h := Scheme + t + " " + more;
    assert h[|Scheme|..] == t + [' '] + more;
    BeforeFirstStopsAtSeparator(t, more, ' ');
  }

  /** A header that is the bare scheme, or has a second space right after it,
      hands the empty string to the verifier, which refuses it. */
  lemma EmptyTokenRejected(more: string, c: AuthLib.Crypto)
    requires AuthLib.Sound(c)
    ensures TokenOf(Some(Scheme)) == Some("")
    ensures TokenOf(Some(Scheme + " " + more)) == Some("")
    ensures GetAuthUser(Some(Scheme), c.verify) == None
    ensures GetAuthUser(Some(Scheme + " " + more), c.verify) == None
  {
    assert Scheme[|Scheme|..] == "";
    assert BeforeFirst("", ' ') == "";
    assert (Scheme + " " + more)[|Scheme|..] == " " + more;
    assert BeforeFirst(" " + more, ' ') == "";
    assert c.verify("") == None;
  }

  lemma {:induction false} BeforeFirstOfSeparatorFree(s: string, sep: char)
    requires sep !in s
    ensures BeforeFirst(s, sep) == s
  {
    if s != [] {
      BeforeFirstOfSeparatorFree(s[1..], sep);
      assert [s[0]] + s[1..] == s;
    }
  }

  lemma {:induction false} BeforeFirstStopsAtSeparator(a: string, b: string, sep: char)
    requires sep !in a
    ensures BeforeFirst(a + [sep] + b, sep) == a
  {
    if a != [] {
      BeforeFirstStopsAtSeparator(a[1..], b, sep);
      assert (a + [sep] + b)[1..] == a[1..] + [sep] + b;
      assert [a[0]] + a[1..] == a;
    }
  }
}

=== FILE: register_route.dfy ===
/**
 `POST /api/auth/register`. The first failing check decides the answer:
 missing field, short password, malformed email, email in use. Every refusal
 is a 400 with its own message and leaves the table as it was; success
 stores the user with the password hashed and answers 201 with the user's
 public fields.
 */
module RegisterRoute {
  import opened Js
  import opened Entities
  import opened EmailRegex
  import opened Users
  import AuthLib

  const MissingFields := Response(400, Error("Nome, email e senha são obrigatórios."))
  const PasswordTooShort := Response(400, Error("A senha deve ter pelo menos 8 caracteres."))
  const InvalidEmail := Response(400, Error("Endereço de email inválido."))
  const EmailInUse := Response(400, Error("Email já está em uso."))
  const Welcome := "Usuário registrado com sucesso."

  /** The handler with `hash` for `hashPassword` and `salt` for the salt
      bcrypt draws on this call. */
  function Register(body: RegisterBody, st: UserStore, hash: (string, nat) -> string, salt: nat)
    : (r: (UserStore, Response))
    ensures r.1.status in {201, 400}
    ensures r.1.status == 400 ==> r.0 == st
    ensures r.1.status == 201 <==>
              && Truthy(body.name) && Truthy(body.email) && Truthy(body.password)
              && Length(body.password.value) >= 8
              && Matches(body.email.value)
              && !EmailTaken(st, body.email.value)
    ensures r.1.status == 201 ==>
              var u := User(st.nextId, body.name.value, body.email.value, hash(body.password.value, salt));
              && r.0 == UserStore(st.users + [u], st.nextId + 1)
              && r.1.payload == Registered(Welcome, UserPayload(u.id, u.name, u.email))
    ensures Valid(st) ==> Valid(r.0)
  {
    if !Truthy(body.name) || !Truthy(body.email) || !Truthy(body.password) then (st, MissingFields)
    else
      var name, email, password := body.name.value, body.email.value, body.password.value;
      IsEmailIsRegex(email);
      if Length(password) < 8 then (st, PasswordTooShort)
      else if !IsEmail(email) then (st, InvalidEmail)
      else if FindByEmail(st.users, email).Some? then (st, EmailInUse)
      else
        var u := User(st.nextId, name, email, hash(password, salt));
        (UserStore(st.users + [u], st.nextId + 1), Response(201, Registered(Welcome, Public(u))))
  }

  /** A missing or empty name, email or password is refused first, whatever
      the other fields hold. */
  lemma MissingFieldFirst(body: RegisterBody, st: UserStore, hash: (string, nat) -> string, salt: nat)
    requires !Truthy(body.name) || !Truthy(body.email) || !Truthy(body.password)
    ensures Register(body, st, hash, salt) == (st, MissingFields)
  {
  }

  /** The password length is checked before the email format: a short
      password with a malformed email is refused for the password. */
  lemma PasswordBeforeEmail(body: RegisterBody, st: UserStore, hash: (string, nat) -> string, salt: nat)
    requires Truthy(body.name) && Truthy(body.email) && Truthy(body.password)
    requires Length(body.password.value) < 8
    ensures Register(body, st, hash, salt) == (st, PasswordTooShort)
  {
  }

  /** With every field present and a long enough password, an email outside
      the pattern's language is refused for its format, whatever the table
      holds. */
  lemma MalformedEmailRefused(body: RegisterBody, st: UserStore, hash: (string, nat) -> string, salt: nat)
    requires Truthy(body.name) && Truthy(body.email) && Truthy(body.password)
    requires Length(body.password.value) >= 8
    requires !Matches(body.email.value)
    ensures Register(body, st, hash, salt) == (st, InvalidEmail)
  {
    IsEmailIsRegex(body.email.value);
  }

  /** An email already in the table is refused with 400, not the 409 the
      registration tests expect, and the table is left as it was. */
  lemma DuplicateEmailIs400(body: RegisterBody, st: UserStore, hash: (string, nat) -> string, salt: nat)
    requires Truthy(body.name) && Truthy(body.email) && Truthy(body.password)
    requires Length(body.password.value) >= 8 && Matches(body.email.value)
    requires EmailTaken(st, body.email.value)
    ensures Register(body, st, hash, salt) == (st, EmailInUse)
    ensures Register(body, st, hash, salt).1.status != 409
  {
    IsEmailIsRegex(body.email.value);
  }

  /** Registering the same body twice: the first succeeds, the second is the
      in-use refusal and changes nothing. */
  lemma {:induction false} SecondRegistrationRefused(body: RegisterBody, st: UserStore, hash: (string, nat) -> string, s1: nat, s2: nat)
    requires Register(body, st, hash, s1).1.status == 201
    ensures var st' := Register(body, st, hash, s1).0;
            Register(body, st', hash, s2) == (st', EmailInUse)
  {
    var st' := Register(body, st, hash, s1).0;
    var k := |st.users|;
    assert st'.users[k].email == body.email.value;
    DuplicateEmailIs400(body, st', hash, s2);
  }

  /** Under a sound hasher the stored password is never the plaintext, and
      the response carries no password at all. */
  lemma PasswordNeverStoredPlain(body: RegisterBody, st: UserStore, c: AuthLib.Crypto, salt: nat)
    requires AuthLib.Sound(c)
    requires Register(body, st, c.hash, salt).1.status == 201
    ensures var st' := Register(body, st, c.hash, salt).0;
            && st'.users[|st.users|].password != body.password.value
            && c.compare(body.password.value, st'.users[|st.users|].password)
  {
  }
}

=== FILE: scenarios.dfy ===
/**
 Properties that span several handlers: the register, login, authorised-list
 round trip, and the places where the handlers and the declared schemas
 disagree with each other.
 */
module Scenarios {
  import opened Js
  import opened Entities
  import opened Users
  import opened EmailRegex
  import AuthLib
  import Middleware
  import RegisterRoute
  import LoginRoute
  import TasksRoute
  import Validations

  /** With sound hashing and signing: after a successful registration the same
      credentials log in, the issued token sent as "Bearer <token>" identifies
      the new user, and listing tasks with it answers exactly that user's
      tasks. */
  lemma {:induction false} RegisterLoginList(name: string, email: string, password: string, salt: nat,
                                             users: UserStore, tasks: TasksRoute.TaskStore, c: AuthLib.Crypto)
    requires AuthLib.Sound(c)
    requires Valid(users)
    requires RegisterRoute.Register(RegisterBody(Some(name), Some(email), Some(password)), users, c.hash, salt).1.status == 201
    ensures var users' := RegisterRoute.Register(RegisterBody(Some(name), Some(email), Some(password)), users, c.hash, salt).0;
            var login := LoginRoute.Login(LoginBody(Some(email), Some(password)), users', c.compare, c.sign);
            && login.status == 200
            && login.payload.LoggedIn?
            && login.payload.user == UserPayload(users.nextId, name, email)
            && var header := Some(Middleware.Scheme + login.payload.token);
               && Middleware.GetAuthUser(header, c.verify).Some?
               && Middleware.GetAuthUser(header, c.verify).value.id == users.nextId
               && var listed := TasksRoute.List(header, c.verify, tasks);
                  && listed.status == 200
                  && multiset(listed.payload.tasks) == multiset(TasksRoute.OwnedBy(tasks.tasks, users.nextId))
  {
    var body := RegisterBody(Some(name), Some(email), Some(password));
    var users' := RegisterRoute.Register(body, users, c.hash, salt).0;
    var k := |users.users|;
    var u := users'.users[k];
    assert u == User(users.nextId, name, email, c.hash(password, salt));
    var lb := LoginBody(Some(email), Some(password));
    LoginRoute.LoginDecision(lb, users', c.compare, c.sign, k);
    var token := c.sign(UserPayload(u.id, u.name, u.email));
    Middleware.PlainToken(token, c.verify);
  }

  /** The create handler and the declared schemas spell the middle status
      differently: each refuses the other's spelling. */
  lemma StatusSpellingsDisagree()
    ensures Validations.ParseStatus("in_progress") == Some(Validations.InProgress)
    ensures "in_progress" !in TasksRoute.ValidStatus
    ensures "in-progress" in TasksRoute.ValidStatus
    ensures Validations.ParseStatus("in-progress").None?
  {
    assert "in_progress"[2] != "in-progress"[2];
    assert "in-progress" != "pending" && "in-progress" != "completed";
  }

  /** An empty status is "absent" to the create handler, which stores
      "pending", but is outside the schema's enum, which refuses it. */
  lemma EmptyStatusDisagrees(header: Option<string>, verify: string -> Option<UserPayload>, title: string,
                             st: TasksRoute.TaskStore, now: nat)
    requires Middleware.GetAuthUser(header, verify).Some?
    requires title != "" && Length(title) <= 255
    ensures var body := TaskBody(Some(title), None, Some(""), None, None);
            && TasksRoute.Create(header, verify, body, st, now).1.payload.task.status == "pending"
            && Validations.ParseCreateTask(body).None?
  {
    Validations.StatusRoundTrip(Validations.Pending, "");
  }

  /** The registration handler checks only a lower bound on the password and
      no bound on the name, so it stores users the declared schema refuses. */
  lemma RouteLooserThanSchema(body: RegisterBody, users: UserStore, hash: (string, nat) -> string, salt: nat,
                              isEmail: string -> bool)
    requires Truthy(body.name) && Truthy(body.email) && Truthy(body.password)
    requires Matches(body.email.value) && !EmailTaken(users, body.email.value)
    requires Length(body.password.value) >= 8
    requires Length(body.password.value) > 100 || Length(body.name.value) > 255
    ensures RegisterRoute.Register(body, users, hash, salt).1.status == 201
    ensures Validations.ParseRegister(body, isEmail).None?
  {
  }

  /** When the email predicate refuses the empty string, a body the login
      schema accepts is never the handler's missing-fields 400: the handler
      goes on to the credential check and answers 200 or 401. */
  lemma LoginSchemaAcceptedNotMissing(b: LoginBody, isEmail: string -> bool, users: UserStore,
                                      compare: (string, string) -> bool, sign: UserPayload -> string)
    requires !isEmail("")
    requires Validations.ParseLogin(b, isEmail).Some?
    ensures LoginRoute.Login(b, users, compare, sign).status in {200, 401}
  {
  }
}

=== FILE: seqs.dfy ===
/**
 `Array.prototype.filter` and `Array.prototype.map`-by-key on sequences, with
 the order-preservation notion (subsequence) their callers rely on.
 */
module Seqs {

  /** `a` can be obtained from `b` by deleting elements, keeping the rest in
      their relative order. */
  ghost predicate IsSubsequence<T>(a: seq<T>, b: seq<T>)
    decreases |b|
  {
    if a == [] then true
    else if b == [] then false
    else if a[0] == b[0] then IsSubsequence(a[1..], b[1..])
    else IsSubsequence(a, b[1..])
  }

  /** `s.filter(keep)`. */
  function Filter<T>(s: seq<T>, keep: T -> bool): (r: seq<T>)
    ensures |r| <= |s|
    ensures forall k :: 0 <= k < |r| ==> keep(r[k]) && r[k] in s
    ensures forall k :: 0 <= k < |s| && keep(s[k]) ==> s[k] in r
    ensures multiset(r) <= multiset(s)
  {
    if s == [] then []
    else
      assert s == [s[0]] + s[1..];
      if keep(s[0]) then [s[0]] + Filter(s[1..], keep) else Filter(s[1..], keep)
  }

  /** Number of elements of `s` that `keep` accepts. */
  function Count<T>(s: seq<T>, keep: T -> bool): nat {
    if s == [] then 0 else (if keep(s[0]) then 1 else 0) + Count(s[1..], keep)
  }

  /** Filtering keeps elements in their original relative order. */
  lemma {:induction false} FilterIsSubsequence<T>(s: seq<T>, keep: T -> bool)
    ensures IsSubsequence(Filter(s, keep), s)
  {
    if s != [] {
      FilterIsSubsequence(s[1..], keep);
      var rest := Filter(s[1..], keep);
      if keep(s[0]) {
        assert Filter(s, keep) == [s[0]] + rest;
        assert ([s[0]] + rest)[1..] == rest;
      } else {
        assert rest == [] || rest[0] != s[0] by {
          if rest != [] {
            assert rest[0] in rest;
          }
        }
      }
    }
  }

  /** The filter drops exactly the elements `keep` rejects. */
  lemma {:induction false} FilterLength<T>(s: seq<T>, keep: T -> bool)
    ensures |Filter(s, keep)| == Count(s, keep)
  {
    if s != [] {
      FilterLength(s[1..], keep);
    }
  }

  /** Filtering twice by the same test is filtering once. */
  lemma {:induction false} FilterIdempotent<T>(s: seq<T>, keep: T -> bool)
    ensures Filter(Filter(s, keep), keep) == Filter(s, keep)
  {
    if s != [] {
      FilterIdempotent(s[1..], keep);
      if keep(s[0]) {
        assert ([s[0]] + Filter(s[1..], keep))[1..] == Filter(s[1..], keep);
      }
    }
  }

  /** A filter that accepts every element is the identity. */
  lemma {:induction false} FilterAll<T>(s: seq<T>, keep: T -> bool)
    requires forall k :: 0 <= k < |s| ==> keep(s[k])
    ensures Filter(s, keep) == s
  {
    if s != [] {
      FilterAll(s[1..], keep);
      assert [s[0]] + s[1..] == s;
    }
  }

  /** Filtering distributes over appending one element. */
  lemma {:induction false} FilterAppend<T>(s: seq<T>, x: T, keep: T -> bool)
    ensures Filter(s + [x], keep) == Filter(s, keep) + (if keep(x) then [x] else [])
  {
    if s == [] {
      assert [] + [x] == [x];
      assert [x][1..] == [];
    } else {
      var t := s + [x];
      assert t[0] == s[0];
      assert t[1..] == s[1..] + [x];
      FilterAppend(s[1..], x, keep);
      if keep(s[0]) {
        assert Filter(t, keep) == [s[0]] + Filter(s[1..] + [x], keep);
      } else {
        assert Filter(t, keep) == Filter(s[1..] + [x], keep);
      }
    }
  }

  /** Sequences that are permutations of each other have the same elements. */
  lemma SameElements<T>(a: seq<T>, b: seq<T>)
    requires multiset(a) == multiset(b)
    ensures forall k :: 0 <= k < |a| ==> a[k] in b
    ensures forall k :: 0 <= k < |b| ==> b[k] in a
  {
    forall k | 0 <= k < |a| ensures a[k] in b {
      assert a[k] in multiset(a);
    }
    forall k | 0 <= k < |b| ensures b[k] in a {
      assert b[k] in multiset(b);
    }
  }
}

=== FILE: task_order.dfy ===
/**
 `orderBy: { createdAt: "desc" }`: tasks newest first. The database leaves the
 order of equal timestamps open; this model keeps them in store order.
 */
module TaskOrder {
  import opened Entities

  /** No task is followed by a strictly newer one. */
  ghost predicate NewestFirst(ts: seq<Task>) {
    forall i, j :: 0 <= i < j < |ts| ==> ts[i].createdAt >= ts[j].createdAt
  }

  /** Puts `t` in front of the first task not newer than it. */
  function Insert(t: Task, ts: seq<Task>): (r: seq<Task>)
    requires NewestFirst(ts)
    ensures NewestFirst(r)
    ensures multiset(r) == multiset(ts) + multiset{t}
    ensures |r| == |ts| + 1
    ensures r[0] == t || (ts != [] && r[0] == ts[0])
  {
    if ts == [] || t.createdAt >= ts[0].createdAt then [t] + ts
    else
      assert ts == [ts[0]] + ts[1..];
      [ts[0]] + Insert(t, ts[1..])
  }

  /** The tasks of `ts`, rearranged newest first. */
  function SortNewestFirst(ts: seq<Task>): (r: seq<Task>)
    ensures NewestFirst(r)
    ensures multiset(r) == multiset(ts)
    ensures |r| == |ts|
  {
    if ts == [] then []
    else
      assert ts == [ts[0]] + ts[1..];
      Insert(ts[0], SortNewestFirst(ts[1..]))
  }
}

=== FILE: tasks_route.dfy ===
/**
 The task collection endpoint. `GET` answers the caller's own tasks, newest
 first; `POST` creates a task for the caller after checking, in this order,
 the token, the title and the status against the handler's own whitelist.
 Both answer 401 before the store or the body is looked at.
 */
module TasksRoute {
  import opened Js
  import opened Seqs
  import opened Entities
  import opened TaskOrder
  import opened Middleware

  const Unauthorized := Response(401, Message("Não Autorizado"))
  const TitleRequired := Response(400, Message("O título é obrigatório"))
  const InvalidStatus := Response(400, Message("Status inválido"))

  /** The create handler's whitelist. Note the hyphen in "in-progress". */
  const ValidStatus: seq<string> := ["pending", "in-progress", "completed"]

  /** The task table: its rows and the next auto-increment id. */
  datatype TaskStore = TaskStore(tasks: seq<Task>, nextId: nat)

  /** Ids are distinct and all below the auto-increment counter. */
  ghost predicate Valid(st: TaskStore) {
    && (forall i :: 0 <= i < |st.tasks| ==> st.tasks[i].id < st.nextId)
    && (forall i, j :: 0 <= i < j < |st.tasks| ==> st.tasks[i].id != st.tasks[j].id)
  }

  /** `where: { userId }`. */
  function OwnedBy(ts: seq<Task>, userId: nat): seq<Task> {
    Filter(ts, (t: Task) => t.userId == userId)
  }

  /** `GET /api/tasks`. */
  function List(header: Option<string>, verify: string -> Option<UserPayload>, st: TaskStore): (r: Response)
    ensures GetAuthUser(header, verify).None? ==> r == Unauthorized
    ensures GetAuthUser(header, verify).Some? ==>
              var me := GetAuthUser(header, verify).value.id;
              && r.status == 200
              && r.payload.TaskList?
              && NewestFirst(r.payload.tasks)
              && multiset(r.payload.tasks) == multiset(OwnedBy(st.tasks, me))
              && (forall k :: 0 <= k < |r.payload.tasks| ==>
                    r.payload.tasks[k] in st.tasks && r.payload.tasks[k].userId == me)
              && (forall k :: 0 <= k < |st.tasks| && st.tasks[k].userId == me ==>
                    st.tasks[k] in r.payload.tasks)
  {
    match GetAuthUser(header, verify)
    case None => Unauthorized
    case Some(user) =>
      var mine := OwnedBy(st.tasks, user.id);
      var sorted := SortNewestFirst(mine);
      SameElements(sorted, mine);
      Response(200, TaskList(sorted))
  }

  /** The task a successful `POST` writes: the three fields it reads from the
      body with their defaults, the caller as owner, the clock as both
      timestamps. */
  function NewTask(body: TaskBody, owner: nat, id: nat, now: nat): Task
    requires Truthy(body.title)
  {
    Task(id := id,
         title := body.title.value,
         description := if Truthy(body.description) then body.description else None,
         status := OrElse(body.status, "pending"),
         userId := owner,
         createdAt := now,
         updatedAt := now)
  }

  /** `POST /api/tasks`: the store afterwards and the response. */
  function Create(header: Option<string>, verify: string -> Option<UserPayload>, body: TaskBody, st: TaskStore, now: nat)
    : (r: (TaskStore, Response))
    ensures GetAuthUser(header, verify).None? ==> r == (st, Unauthorized)
    ensures r.1.status != 201 ==> r.0 == st
    ensures r.1.status in {201, 400, 401}
    ensures r.1.status == 401 <==> GetAuthUser(header, verify).None?
    ensures GetAuthUser(header, verify).Some? && !Truthy(body.title) ==> r == (st, TitleRequired)
    ensures && GetAuthUser(header, verify).Some? && Truthy(body.title)
            && Truthy(body.status) && body.status.value !in ValidStatus
            ==> r == (st, InvalidStatus)
    ensures r.1.status == 201 <==>
              && GetAuthUser(header, verify).Some?
              && Truthy(body.title)
              && (!Truthy(body.status) || body.status.value in ValidStatus)
    ensures r.1.status == 201 ==>
              && r.1.payload.CreatedTask?
              && var task := r.1.payload.task;
              && r.0.tasks == st.tasks + [task]
              && r.0.nextId == st.nextId + 1
              && task.id == st.nextId
              && task.userId == GetAuthUser(header, verify).value.id
              && task.title == body.title.value
              && task.status in ValidStatus
              && task.createdAt == now
    ensures Valid(st) ==> Valid(r.0)
  {
    match GetAuthUser(header, verify)
    case None => (st, Unauthorized)
    case Some(user) =>
      if !Truthy(body.title) then (st, TitleRequired)
      else if Truthy(body.status) && body.status.value !in ValidStatus then (st, InvalidStatus)
      else
        var task := NewTask(body, user.id, st.nextId, now);
        (TaskStore(st.tasks + [task], st.nextId + 1), Response(201, CreatedTask(task)))
  }

  /** An empty or absent description is stored as null and an empty or absent
      status as "pending"; a non-empty description is stored as sent. */
  lemma Defaults(header: Option<string>, verify: string -> Option<UserPayload>, body: TaskBody, st: TaskStore, now: nat)
    requires Create(header, verify, body, st, now).1.status == 201
    ensures var task := Create(header, verify, body, st, now).1.payload.task;
            && (Truthy(body.description) ==> task.description == body.description)
            && (!Truthy(body.description) ==> task.description == None)
            && (Truthy(body.status) ==> task.status == body.status.value)
            && (!Truthy(body.status) ==> task.status == "pending")
  {
  }

  /** The title is checked before the status: a body lacking both a title and
      a valid status is refused for its title. */
  lemma TitleCheckedFirst(header: Option<string>, verify: string -> Option<UserPayload>, body: TaskBody, st: TaskStore, now: nat)
    requires GetAuthUser(header, verify).Some?
    requires !Truthy(body.title)
    ensures Create(header, verify, body, st, now) == (st, TitleRequired)
  {
  }

  /** The handler spells the middle status with a hyphen, so the underscore
      spelling every other part of the application uses is refused while the
      hyphenated one is stored. */
  lemma HyphenatedStatusOnly(header: Option<string>, verify: string -> Option<UserPayload>, title: string, st: TaskStore, now: nat)
    requires GetAuthUser(header, verify).Some?
    requires title != ""
    ensures Create(header, verify, TaskBody(Some(title), None, Some("in_progress"), None, None), st, now)
              == (st, InvalidStatus)
    ensures var r := Create(header, verify, TaskBody(Some(title), None, Some("in-progress"), None, None), st, now);
            r.1.status == 201 && r.1.payload.task.status == "in-progress"
  {
    assert "in_progress" !in ValidStatus by {
      assert "in_progress"[2] != "in-progress"[2];
      assert "in_progress" != "pending" && "in_progress" != "completed";
    }
  }

  /** Only title, description and status are read from the body: an owner or
      id the client slips in changes nothing, and the owner is the caller. */
  lemma OwnerIsForced(header: Option<string>, verify: string -> Option<UserPayload>, body: TaskBody,
                      owner: Option<nat>, id: Option<nat>, st: TaskStore, now: nat)
    ensures Create(header, verify, body.(userId := owner, id := id), st, now)
              == Create(header, verify, body, st, now)
  {
  }

  /** After a successful create, the creator's listing gains exactly the new
      task and every other user's listing is unchanged. */
  lemma {:induction false} ListAfterCreate(header: Option<string>, verify: string -> Option<UserPayload>, body: TaskBody,
                                           st: TaskStore, now: nat, other: Option<string>)
    requires Create(header, verify, body, st, now).1.status == 201
    ensures var (st', resp) := Create(header, verify, body, st, now);
            var me := GetAuthUser(header, verify).value.id;
            && multiset(List(header, verify, st').payload.tasks)
                 == multiset(List(header, verify, st).payload.tasks) + multiset{resp.payload.task}
            && (GetAuthUser(other, verify).Some? && GetAuthUser(other, verify).value.id != me ==>
                  multiset(List(other, verify, st').payload.tasks) == multiset(List(other, verify, st).payload.tasks))
  {
    var (st', resp) := Create(header, verify, body, st, now);
    var task := resp.payload.task;
    var me := GetAuthUser(header, verify).value.id;
    FilterAppend(st.tasks, task, (t: Task) => t.userId == me);
    if GetAuthUser(other, verify).Some? && GetAuthUser(other, verify).value.id != me {
      FilterAppend(st.tasks, task, (t: Task) => t.userId == GetAuthUser(other, verify).value.id);
    }
  }
}

=== FILE: users.dfy ===
/**
 The user table both auth handlers consult: its rows, the auto-increment
 counter, and `findUnique({ where: { email } })`.
 */
module Users {
  import opened Js
  import opened Entities

  datatype UserStore = UserStore(users: seq<User>, nextId: nat)

  /** Ids are distinct and below the counter; no two users share an email. */
  ghost predicate Valid(st: UserStore) {
    && (forall i :: 0 <= i < |st.users| ==> st.users[i].id < st.nextId)
    && (forall i, j :: 0 <= i < j < |st.users| ==> st.users[i].id != st.users[j].id)
    && (forall i, j :: 0 <= i < j < |st.users| ==> st.users[i].email != st.users[j].email)
  }

  /** Some user registered with this email. */
  ghost predicate EmailTaken(st: UserStore, email: string) {
    exists k :: 0 <= k < |st.users| && st.users[k].email == email
  }

  /** `findUnique` by email (compared exactly, character by character). */
  function FindByEmail(users: seq<User>, email: string): (r: Option<User>)
    ensures r.Some? ==> r.value in users && r.value.email == email
    ensures r.None? ==> forall k :: 0 <= k < |users| ==> users[k].email != email
  {
    if users == [] then None
    else if users[0].email == email then Some(users[0])
    else
      var r := FindByEmail(users[1..], email);
      assert forall k :: 1 <= k < |users| ==> users[k] == users[1..][k - 1];
      r
  }

  /** In a valid store the user found is the only one with that email. */
  lemma FoundIsTheOne(st: UserStore, email: string, k: nat)
    requires Valid(st)
    requires k < |st.users| && st.users[k].email == email
    ensures FindByEmail(st.users, email) == Some(st.users[k])
  {
    var u := FindByEmail(st.users, email).value;
    var m :| 0 <= m < |st.users| && st.users[m] == u;
  }
}

=== FILE: validations.dfy ===
/**
 The declared input schemas: registration, login, task creation and task
 update, as parsers that either refuse the body or return the typed input
 with defaults filled in. Unknown keys are dropped, as a zod object does.
 `z.email()` is a library predicate and enters as the parameter `isEmail`.
 */
module Validations {
  import opened Js
  import opened Entities

  /** `z.enum(['pending', 'in_progress', 'completed'])`. */
  datatype Status = Pending | InProgress | Completed

  const StatusNames: seq<string> := ["pending", "in_progress", "completed"]

  function StatusName(s: Status): (name: string)
    ensures name in StatusNames
  {
    match s
    case Pending => "pending"
    case InProgress => "in_progress"
    case Completed => "completed"
  }

  function ParseStatus(s: string): Option<Status> {
    if s == "pending" then Some(Pending)
    else if s == "in_progress" then Some(InProgress)
    else if s == "completed" then Some(Completed)
    else None
  }

  /** Printing a status and parsing it back is the identity, and parsing
      accepts nothing but the printed names. */
  lemma StatusRoundTrip(st: Status, s: string)
    ensures ParseStatus(StatusName(st)) == Some(st)
    ensures ParseStatus(s).Some? ==> StatusName(ParseStatus(s).value) == s
    ensures ParseStatus(s).Some? <==> s in StatusNames
  {
    assert "pending" != "in_progress" && "pending" != "completed" && "in_progress" != "completed";
  }

  /** `z.string().min(lo).max(hi)` on a present value; lengths in UTF-16 units. */
  predicate LengthWithin(s: string, lo: nat, hi: nat) {
    lo <= Length(s) <= hi
  }

  datatype RegisterInput = RegisterInput(name: string, email: string, password: string)
  datatype LoginInput = LoginInput(email: string, password: string)
  datatype CreateTaskInput = CreateTaskInput(title: string, description: Option<string>, status: Status)
  datatype UpdateTaskInput = UpdateTaskInput(title: Option<string>, description: Option<string>, status: Option<Status>)

  /** `registerSchema`: name of 1 to 255 units, an email, a password of 8 to
      100 units; all three required. */
  function ParseRegister(b: RegisterBody, isEmail: string -> bool): (r: Option<RegisterInput>)
    ensures r.Some? <==>
              && b.name.Some? && 1 <= Length(b.name.value) <= 255
              && b.email.Some? && isEmail(b.email.value)
              && b.password.Some? && 8 <= Length(b.password.value) <= 100
    ensures r.Some? ==> r.value == RegisterInput(b.name.value, b.email.value, b.password.value)
  {
    if && b.name.Some? && LengthWithin(b.name.value, 1, 255)
       && b.email.Some? && isEmail(b.email.value)
       && b.password.Some? && LengthWithin(b.password.value, 8, 100)
    then Some(RegisterInput(b.name.value, b.email.value, b.password.value))
    else None
  }

  /** `loginSchema`: an email and a non-empty password of any length. */
  function ParseLogin(b: LoginBody, isEmail: string -> bool): (r: Option<LoginInput>)
    ensures r.Some? <==> b.email.Some? && isEmail(b.email.value) && b.password.Some? && b.password.value != ""
    ensures r.Some? ==> r.value == LoginInput(b.email.value, b.password.value)
  {
    if b.email.Some? && isEmail(b.email.value) && b.password.Some? && Length(b.password.value) >= 1
    then Some(LoginInput(b.email.value, b.password.value))
    else None
  }

  /** An optional description: absent, or at most 1000 units. */
  predicate DescriptionOk(d: Option<string>) {
    d.None? || Length(d.value) <= 1000
  }

  /** `createTaskSchema`: a title of 1 to 255 units, an optional description of
      at most 1000, a status from the enum that defaults to pending. */
  function ParseCreateTask(b: TaskBody): (r: Option<CreateTaskInput>)
    ensures r.Some? <==>
              && b.title.Some? && 1 <= Length(b.title.value) <= 255
              && DescriptionOk(b.description)
              && (b.status.None? || b.status.value in StatusNames)
    ensures r.Some? ==>
              && r.value.title == b.title.value
              && r.value.description == b.description
              && StatusName(r.value.status) in StatusNames
              && (b.status.None? ==> r.value.status == Pending)
              && (b.status.Some? ==> StatusName(r.value.status) == b.status.value)
  {
    var status := if b.status.None? then Some(Pending) else ParseStatus(b.status.value);
    StatusRoundTrip(Pending, b.status.GetOr(""));
    if b.title.Some? && LengthWithin(b.title.value, 1, 255) && DescriptionOk(b.description) && status.Some?
    then Some(CreateTaskInput(b.title.value, b.description, status.value))
    else None
  }

  /** `updateTaskSchema`: every field optional; a present field obeys the same
      bounds and enum as on creation, and no default is filled in. */
  function ParseUpdateTask(b: TaskBody): (r: Option<UpdateTaskInput>)
    ensures r.Some? <==>
              && (b.title.None? || 1 <= Length(b.title.value) <= 255)
              && DescriptionOk(b.description)
              && (b.status.None? || b.status.value in StatusNames)
    ensures r.Some? ==>
              && r.value.title == b.title
              && r.value.description == b.description
              && (r.value.status.None? <==> b.status.None?)
              && (b.status.Some? ==> StatusName(r.value.status.value) == b.status.value)
  {
    var status := if b.status.None? then None else ParseStatus(b.status.value);
    StatusRoundTrip(Pending, b.status.GetOr(""));
    if && (b.title.None? || LengthWithin(b.title.value, 1, 255))
       && DescriptionOk(b.description)
       && (b.status.None? || status.Some?)
    then Some(UpdateTaskInput(b.title, b.description, status))
    else None
  }

  /** The body a client would send for a parsed creation input. */
  function CreateBody(v: CreateTaskInput): TaskBody {
    TaskBody(Some(v.title), v.description, Some(StatusName(v.status)), None, None)
  }

  /** Sending a parsed creation input again parses to the same input. */
  lemma CreateRoundTrip(b: TaskBody)
    requires ParseCreateTask(b).Some?
    ensures ParseCreateTask(CreateBody(ParseCreateTask(b).value)) == ParseCreateTask(b)
  {
    var v := ParseCreateTask(b).value;
    StatusRoundTrip(v.status, StatusName(v.status));
  }

  /** The empty update is valid and changes nothing. */
  lemma EmptyUpdateValid()
    ensures ParseUpdateTask(TaskBody(None, None, None, None, None)) == Some(UpdateTaskInput(None, None, None))
  {
  }

  /** Whatever creation accepts, update accepts too, with the same fields;
      only the status default differs. */
  lemma CreateImpliesUpdate(b: TaskBody)
    requires ParseCreateTask(b).Some?
    ensures ParseUpdateTask(b).Some?
    ensures var c, u := ParseCreateTask(b).value, ParseUpdateTask(b).value;
            && u.title == Some(c.title)
            && u.description == c.description
            && (b.status.Some? ==> u.status == Some(c.status))
            && (b.status.None? ==> u.status == None && c.status == Pending)
  {
    if b.status.Some? {
      StatusRoundTrip(ParseCreateTask(b).value.status, b.status.value);
      StatusRoundTrip(ParseUpdateTask(b).value.status.value, b.status.value);
    }
  }

  /** Keys outside the schema are dropped: a client-chosen owner or id does
      not change what either task schema yields. */
  lemma UnknownKeysDropped(b: TaskBody, owner: Option<nat>, id: Option<nat>)
    ensures ParseCreateTask(b.(userId := owner, id := id)) == ParseCreateTask(b)
    ensures ParseUpdateTask(b.(userId := owner, id := id)) == ParseUpdateTask(b)
  {
  }
}
